=== FILE: README.md ===
# Singly-linked list of `unsigned int` with a cursor iterator — Dafny model

This project models `linked_list.c`. That file is a singly-linked list of
`unsigned int` values with `head`, `tail` and `size` bookkeeping, plus a
cursor-style iterator. Each C entry point is modelled as a Dafny function or
method on immutable values, and the properties the library promises are proved
about that model.

The model represents node identity explicitly:

- A list is `List(chain, tail, size)`.
  - `chain` is the sequence of nodes reachable from `head`, each a `Node(id, data)` whose `id` is its address.
  - `head` is the address of the chain's first node.
  - `tail` is a stored pointer (`Null` or `Ptr(id)`).
  - A node's `next` is the node after it in the chain. Reading it goes through `Nodes.NextOf`, which finds the node by its address.

  Because `tail` is stored separately, the model can state exactly where the source leaves it.
- A null `struct linked_list *` is `None` in an `Option<List>` handle. Every mutator returns `Outcome(ok, list)`: its boolean result and the handle afterwards.
- An allocation is a parameter of the operation: `Alloc = OutOfMemory | Fresh(id)`. A successful allocation yields an address that no reachable node occupies. A failed allocation leaves everything unchanged.
- Two invariants are distinguished:
  - `LinkedList.Valid` holds of every list the operations build: addresses are distinct, `size` is at least the number of reachable nodes, and `tail` is null or points into the chain. Every as-written operation keeps it.
  - `LinkedList.WellFormed` is the invariant the rest of the library relies on: `size` equals the reachable count and `tail` is the last node. `insert_end` appends after `tail`, and `size` is returned as the element count. The as-written positional insert breaks it in two cases; see Findings.
- Where the intended behaviour and the code disagree, the model follows the code:
  - The positional insert at `index == size` does not behave like `insert_end`.
  - The positional remove at `index == size` dereferences null instead of failing.

  The corrected variants live in module `Corrected`. Module `Runs` states results about runs of operations twice: with the as-written positional insert (`Variant.AsWritten`) and with the corrected one (`Variant.Fixed`).

Modules: `Nodes` (payload type, `SIZE_MAX`, addresses, chains),
`LinkedList` (list operations), `ListProperties` (properties relating several
operations, counterexamples), `Iterators` (iterator), `Corrected` (the fixed
insert and remove), `Runs` (runs of operations and concrete scenarios).

## Model

| member | source | states |
|---|---|---|
| LinkedList.Create | linked_list.c:24-33 | creation succeeds exactly when allocation does; the new list is well-formed, empty, with null head and size 0 |
| LinkedList.Delete | linked_list.c:35-49 | fails only on a null list; otherwise releases exactly the reachable nodes, each once, in chain order |
| LinkedList.Size | linked_list.c:51-55 | `SIZE_MAX` for a null list; otherwise the stored count, which is never below the number of reachable nodes and equals it on a well-formed list |
| LinkedList.InsertEnd | linked_list.c:57-72 | succeeds iff the list is non-null and allocation succeeds, else no change; the new node is last and becomes `tail`; size grows by 1; on a well-formed list the values gain `data` at the end and the list stays well-formed |
| LinkedList.InsertFront | linked_list.c:74-88 | succeeds iff the list is non-null and allocation succeeds, else no change; the new node is the head and every old node follows it, in order, with its address and data unchanged; the values gain `data` in front; size grows by 1; `tail` becomes the new node when the stored `size` was 0 and is untouched otherwise; well-formedness is kept |
| LinkedList.Walk | linked_list.c:94-103 | the index walk fails exactly when `index` exceeds the chain length; on success `p` is the node before `index` (null for 0) and `n` the node at `index`, which is null when `index` equals the chain length |
| LinkedList.Insert | linked_list.c:90-116 | fails with no change iff the list is null, `index` exceeds the number of reachable nodes, or allocation fails; otherwise the values become `s[..index] + [data] + s[index..]`, the new node sits at `index` and every old node keeps its address and data, shifted by one from `index` on; size grows by 1, and `tail` becomes the new node at index 0 and is untouched otherwise |
| LinkedList.InsertEndKeepsPrefix | linked_list.c:64-67 | after a successful `insert_end`, the nodes before the new one are a prefix of the old chain: none when `tail` was null (the new node becomes the head), otherwise ending with the node the old `tail` pointed to |
| LinkedList.FindFrom | linked_list.c:122-131 | the scan from position `i` returns the position of the first matching node, or `SIZE_MAX` when none matches |
| LinkedList.Find | linked_list.c:118-132 | `SIZE_MAX` for a null list or when no node carries `data`; otherwise the smallest index whose node carries `data` |
| LinkedList.Remove | linked_list.c:134-158 | requires `index` to differ from the number of reachable nodes, because the source dereferences null there; fails with no change iff the list is null or `index` exceeds that number; otherwise unlinks exactly node `index`, every other node keeps its address and data, in order; size drops by 1, `tail` moves to the predecessor (null at index 0) only when the removed node was `tail`; well-formedness is kept |
| ListProperties.InsertKeepsWellFormedIff | linked_list.c:108-111 | on a well-formed list a successful positional insert keeps it well-formed iff the list was empty or `0 < index < size` |
| ListProperties.InsertThenFind | linked_list.c:90-132 | after inserting `data` at `index`, `find(data)` returns an index no larger than `index` |
| ListProperties.RemoveUndoesInsert | linked_list.c:105-155 | removing at `index` right after inserting there restores the chain and size; `tail` is restored iff `index > 0` or `tail` was null |
| ListProperties.RemoveOnlyNode | linked_list.c:149-155 | removing the only node of a well-formed list leaves head and tail null and size 0 |
| ListProperties.InsertAtFrontStrandsTail | linked_list.c:108-111 | on [5], insert at 0 makes the new head the tail; a following `insert_end(7)` gives [3, 7] with size 3 |
| ListProperties.InsertAtEndStrandsTail | linked_list.c:108-111 | on [5], insert at 1 leaves `tail` on 5 though 7 is last |
| Iterators.CreateIterator | linked_list.c:160-184 | for `index < SIZE_MAX`: succeeds iff the list is non-null, `index` is below the number of reachable nodes, and allocation succeeds; the iterator then stands on node `index`, with `current_index == index` and that node's data cached |
| Iterators.Iterate | linked_list.c:193-207 | succeeds iff the iterator is non-null and its node has a successor; it then moves to node `index + 1` and caches its data; otherwise the iterator is unchanged |
| Iterators.DeleteIterator | linked_list.c:186-191 | fails only on a null iterator; the list and its nodes are never touched |
| Iterators.DrainReadsSuffix | linked_list.c:193-207 | from index `k`, iterating until failure reads exactly the values from position `k` on, with (number of reachable nodes) − 1 − `k` successful calls |
| Iterators.IterateStopsAtLast | linked_list.c:198-206 | at the last node, iterate reports false and the cached value stays the last one |
| Corrected.InsertFixed | linked_list.c:105-113 | positional insert with the same success condition, values, new-node position and surviving nodes as `insert`; on success the new node is `tail` iff `index` equals the number of reachable nodes, and `tail` is untouched for a smaller index; a well-formed list stays well-formed |
| Corrected.InsertFixedAgrees | linked_list.c:108-111 | where the as-written insert keeps `tail` right (empty list, or `0 < index < size`), the fixed insert gives the same result |
| Corrected.InsertFixedAtFront | linked_list.c:74-88 | on a well-formed list the fixed insert at 0 equals `insert_front` |
| Corrected.InsertFixedAtEnd | linked_list.c:57-72 | on a well-formed list the fixed insert at `size` equals `insert_end` |
| Corrected.RemoveChecked | linked_list.c:141-152 | positional remove that fails at every `index` with no node: no precondition on `index`, same success effect as `remove`, keeps well-formedness |
| Corrected.RemoveCheckedAgrees | linked_list.c:134-158 | wherever the as-written remove is safe to call, the checked remove gives the same result |
| Runs.Apply | linked_list.c:57-158 | one mutator call, with the as-written or the corrected positional insert, keeps the list sound and moves `size` by +1 on a successful insert, -1 on a successful remove, 0 on failure; with the corrected insert it also keeps a well-formed list well-formed |
| Runs.RunTracksSize | linked_list.c:57-158 | over any run of operations with either insert variant, starting from any sound list, and for any allocator that never returns a reachable address (the allocator sees the step number as well as the list, so any sequence of fresh addresses is covered), the list stays sound and `size` equals the initial size plus successful inserts minus successful removes |
| Runs.FixedRunKeepsWellFormed | linked_list.c:105-113 | with the corrected positional insert and remove, any run from a well-formed list, under any allocator that never returns a reachable address at any step, ends well-formed, so `size` equals the reachable count |
| Runs.SpreadAddressScenario | linked_list.c:57-158 | an allocator may hand out a different address for a list state seen before: append 5, remove it, append 7 ends with 7 at address 3, where 5 had address 1, after 2 successful inserts and 1 successful remove |
| Runs.AsWrittenRunLosesNode | linked_list.c:57-116 | as written, insert at 0 then `insert_end(7)` on [5] reports two successful inserts and `size` 3 while the list reads [3, 7] |
| Runs.AppendScenario | linked_list.c:57-72 | empty list, `insert_end(5)`, `insert_end(7)` gives [5, 7] with `tail` on 7 |
| Runs.PrependScenario | linked_list.c:74-88 | `insert_front(3)` on [5, 7] gives [3, 5, 7] with `tail` still on 7 |
| Runs.FindScenario | linked_list.c:118-132 | in [3, 5, 7], size is 3 and `find(5)` is 1 |
| Runs.RemoveScenario | linked_list.c:134-158 | `remove(0)` on [3, 5, 7] gives [5, 7], size 2, `tail` still on 7 |
| Runs.InsertIntoEmptyScenario | linked_list.c:90-116 | on an empty list, insert at 1 fails and insert at 0 makes the sole node both head and tail |
| Runs.IterateScenario | linked_list.c:193-207 | an iterator at 0 on [3, 5, 7] (what `CreateIterator` returns at index 0) caches 3, then advances to 5, then 7; the third advance fails and 7 stays cached |

## Left out

- Allocator hooks (`malloc_impl`, `free_impl`, `linked_list_register_malloc`, `linked_list_register_free`, the two function-pointer slots): calls through foreign function pointers. Allocation is a parameter of each operation. The slots start as null, so in the source nothing works before registration; the model assumes an allocator has been registered.
- Releasing memory in `linked_list_delete`, `linked_list_remove` and `linked_list_delete_iterator`: `free` cannot be modelled. `Delete` returns the addresses it releases instead; the others simply drop the node or iterator.
- Nodes unlinked by `insert_end` after a stale `tail` are leaked in the source. The model only stops tracking them; a later allocation is only required to avoid reachable addresses.
- Iterators used after the list is mutated: the source has no guard. The iterator is modelled only against the list it was created on, unmutated (`Iterators.Positioned`).
- The iterator's `ll` back-reference is set but never read by any operation, so `Iterators.Iterator` does not carry it.
- `linked_list.h` is not part of this model. The struct fields are inferred from their uses.
- Iterators.CreateIterator: requires `index < SIZE_MAX`. At `index == SIZE_MAX` the counter `i` wraps to 0 at line 165; on an empty list, line 182 then reads through a null node. That wrap is not modelled.
- Machine width of `size_t`: `SIZE_MAX` is taken to be 2^64 - 1 (a 64-bit `size_t`). The stored `size` is unbounded, so the wrap of `size++` past `SIZE_MAX` is not modelled. `find` and `size` use `SIZE_MAX` as a sentinel, which could collide with a real index or count of that magnitude; the model keeps the sentinel as the source does.
- LinkedList.InsertEnd: on a list whose `tail` is not the last node, the nodes after `tail` are unlinked, as `LinkedList.InsertEndKeepsPrefix` states. The values read afterwards are stated only for a well-formed list; `ListProperties.InsertAtFrontStrandsTail` gives one concrete case of the other kind.
- LinkedList.Remove: requires `index != |h.value.chain|`, the number of reachable nodes, because the walk ends on null there and lines 149-150 dereference it. `Corrected.RemoveChecked` covers that index.
- Runs.Apply: the `AsWritten` variant still removes through `Corrected.RemoveChecked`, because the source's remove has no outcome at `index == |chain|`. At every other index the two agree (`Corrected.RemoveCheckedAgrees`).

## Findings

| source | as written | input that shows it | evidently intended | confidence | as-written member | corrected member |
|---|---|---|---|---|---|---|
| linked_list.c:110-111 | positional insert sets `tail` to the new node whenever `p` is null, i.e. at index 0 even on a non-empty list | `insert(ll, 0, 3)` on [5], then `insert_end(ll, 7)`: the list reads [3, 7], 5 is unlinked, `size` is 3 | `tail` moves to the new node only when that node is linked last | high (not executed) | ListProperties.InsertAtFrontStrandsTail | Corrected.InsertFixed |
| linked_list.c:108-111 | positional insert at `index == size > 0` leaves `tail` on the old last node | `insert(ll, 1, 7)` on [5]: `tail` still points to 5 | inserting at `size` behaves like `insert_end` and makes the new node the tail | high (not executed) | ListProperties.InsertAtEndStrandsTail | Corrected.InsertFixed |
| linked_list.c:141-150 | remove's walk accepts `index == size` and ends with `n` null; line 149 or 150 then reads `n->next` | `remove(ll, 0)` on an empty list, or `remove(ll, 1)` on [5] | an index with no node fails like any index past the end | high (not executed) | LinkedList.Walk | Corrected.RemoveChecked |

=== FILE: corrected.dfy ===
/**
 Positional insert and remove as the rest of the library evidently intends
 them: insert moves `tail` exactly when the new node is last, and remove
 reports failure instead of dereferencing null at the end of the chain.
 Each is related to the as-written operation it corrects.
 */
module Corrected {
  import opened Nodes
  import opened LinkedList

  /**
   Positional insert with the tail fix: after linking, the new node becomes
   `tail` when nothing follows it (its `next` is null), and `head` is set only
   when it was linked at index 0.
   */
  function InsertFixed(h: Option<List>, index: nat, data: UInt, a: Alloc): (r: Outcome)
    requires Admissible(h, a)
    ensures r.ok <==> h.Some? && index <= |h.value.chain| && a.Fresh?
    ensures !r.ok ==> r.list == h
    ensures r.ok ==> r.list.Some? && Valid(r.list.value)
    ensures r.ok ==> r.list.value.size == h.value.size + 1
    ensures r.ok ==> (r.list.value.tail == Ptr(a.id) <==> index == |h.value.chain|)
    ensures r.ok && index < |h.value.chain| ==> r.list.value.tail == h.value.tail
    ensures r.ok ==> Values(r.list.value.chain) == Values(h.value.chain)[..index] + [data] + Values(h.value.chain)[index..]
    ensures r.ok ==> r.list.value.chain[index] == Node(a.id, data)
    ensures r.ok ==> r.list.value.chain[..index] == h.value.chain[..index]
    ensures r.ok ==> r.list.value.chain[index + 1..] == h.value.chain[index..]
    ensures r.ok && WellFormed(h.value) ==> WellFormed(r.list.value)
  {
    if h.None? || index > |h.value.chain| || a.OutOfMemory? then Outcome(false, h)
    else
      var l := h.value;
      var n := Node(a.id, data);
      LinkAtFacts(l.chain, index, n);
      LinkAtFrame(l.chain, index, n);
      var c := LinkAt(l.chain, index, n);
      Outcome(true, Some(List(c, if index == |l.chain| then Ptr(a.id) else l.tail, l.size + 1)))
  }

  /**
   Where the source's positional insert already keeps `tail` right, strictly
   inside the chain or into an empty list, the fixed insert does the same.
   */
  lemma InsertFixedAgrees(h: Option<List>, index: nat, data: UInt, a: Alloc)
    requires Admissible(h, a) && h.Some? && WellFormed(h.value)
    requires |h.value.chain| == 0 || 0 < index < |h.value.chain|
    ensures InsertFixed(h, index, data, a) == Insert(h, index, data, a)
  {
  }

  /** On a well-formed list, the fixed insert at index 0 is `linked_list_insert_front`. */
  lemma InsertFixedAtFront(h: Option<List>, data: UInt, a: Alloc)
    requires Admissible(h, a) && h.Some? && WellFormed(h.value)
    ensures InsertFixed(h, 0, data, a) == InsertFront(h, data, a)
  {
    var c := h.value.chain;
    if a.Fresh? {
      var n := Node(a.id, data);
      var prepended := Outcome(true, Some(List([n] + c, if |c| == 0 then Ptr(a.id) else h.value.tail, h.value.size + 1)));
      assert LinkAt(c, 0, n) == [n] + c;
      assert InsertFixed(h, 0, data, a) == prepended;
      assert InsertFront(h, data, a) == prepended;
    }
  }

  /** On a well-formed list, the fixed insert at the end is `linked_list_insert_end`. */
  lemma InsertFixedAtEnd(h: Option<List>, data: UInt, a: Alloc)
    requires Admissible(h, a) && h.Some? && WellFormed(h.value)
    ensures InsertFixed(h, |h.value.chain|, data, a) == InsertEnd(h, data, a)
  {
    var c := h.value.chain;
    if a.Fresh? {
      var n := Node(a.id, data);
      var appended := Outcome(true, Some(List(c + [n], Ptr(a.id), h.value.size + 1)));
      assert LinkAt(c, |c|, n) == c + [n];
      assert InsertFixed(h, |c|, data, a) == appended;
      if |c| > 0 {
        IndexOfDistinct(c, |c| - 1);
        assert h.value.tail == Ptr(c[|c| - 1].id);
        assert c[..IndexOf(c, h.value.tail.id) + 1] == c;
      } else {
        assert c + [n] == [n];
      }
      assert InsertEnd(h, data, a) == appended;
    }
  }

  /**
   Positional remove with the end-of-chain check: the walk ending on null
   means there is no node at `index`, so the call fails without change.
   */
  function RemoveChecked(h: Option<List>, index: nat): (r: Outcome)
    requires h.Some? ==> Valid(h.value)
    ensures r.ok <==> h.Some? && index < |h.value.chain|
    ensures !r.ok ==> r.list == h
    ensures r.ok ==> r.list.Some? && Valid(r.list.value)
    ensures r.ok ==> r.list.value.size + 1 == h.value.size
    ensures r.ok ==> Values(r.list.value.chain) == Values(h.value.chain)[..index] + Values(h.value.chain)[index + 1..]
    ensures r.ok && WellFormed(h.value) ==> WellFormed(r.list.value)
  {
    if h.Some? && index == |h.value.chain| then Outcome(false, h) else Remove(h, index)
  }

  /** Wherever the source's remove is safe to call, the checked remove does the same. */
  lemma RemoveCheckedAgrees(h: Option<List>, index: nat)
    requires h.Some? ==> Valid(h.value) && index != |h.value.chain|
    ensures RemoveChecked(h, index) == Remove(h, index)
  {
  }
}

=== FILE: iterator.dfy ===
/**
 The cursor-style iterator of `linked_list.c`: a node pointer, the index it
 was reached at, and a copy of that node's data. The iterator is modelled
 against a list that is not mutated while it is in use.
 */
module Iterators {
  import opened Nodes
  import opened LinkedList

  /** `struct iterator`: `current_node`, `current_index` and the cached `data`. */
  datatype Iterator = Iterator(node: NodeId, index: nat, data: UInt)

  /** The iterator standing on node `k` of the chain. */
  function IterAt(c: seq<Node>, k: nat): Iterator
    requires k < |c|
  {
    Iterator(c[k].id, k, c[k].data)
  }

  /** The iterator stands on the node its index names and caches that node's data. */
  predicate Positioned(l: List, it: Iterator) {
    it.index < |l.chain| && it == IterAt(l.chain, it.index)
  }

  /** What `linked_list_iterate` returns and the iterator afterwards. */
  datatype Step = Step(ok: bool, iter: Option<Iterator>)

  /**
   `linked_list_create_iterator`: counts `i` down from `index + 1` while
   following `next` from `head`, stopping when the node pointer is null or the
   count reaches 0; a count left above 0 means the list is too short.
   `obtained` says whether allocating the iterator succeeded.
   */
  method CreateIterator(h: Option<List>, index: nat, obtained: bool) returns (r: Option<Iterator>)
    requires h.Some? ==> Valid(h.value)
    requires index < SIZE_MAX
    ensures r.Some? <==> h.Some? && index < |h.value.chain| && obtained
    ensures r.Some? ==> Positioned(h.value, r.value) && r.value.index == index
  {
    if h.None? {
      return None;
    }
    var c := h.value.chain;
    var cur := h.value.Head();
    var i: nat := index + 1;
    ghost var steps := 0;
    while cur.Ptr?
      invariant 1 <= i && steps + i == index + 1
      invariant steps <= |c|
      invariant cur == RefAt(c, steps)
      decreases i
    {
      i := i - 1;
      if i == 0 {
        break;
      }
      NextOfAt(c, steps);
      cur := NextOf(c, cur.id);
      steps := steps + 1;
    }
    if i != 0 {
      return None;
    }
    if !obtained {
      return None;
    }
    NextOfAt(c, index);
    r := Some(Iterator(cur.id, index, NodeAt(c, cur.id).data));
  }

  /**
   `linked_list_iterate`: when the current node has a successor, moves onto
   it, bumps the index and refreshes the cached data; otherwise reports false
   and leaves the iterator as it was. A null iterator reports false.
   */
  function Iterate(l: List, h: Option<Iterator>): (r: Step)
    requires Valid(l)
    requires h.Some? ==> Positioned(l, h.value)
    ensures r.ok <==> h.Some? && h.value.index + 1 < |l.chain|
    ensures r.ok ==> r.iter.Some? && Positioned(l, r.iter.value) && r.iter.value.index == h.value.index + 1
    ensures !r.ok ==> r.iter == h
  {
    if h.None? then Step(false, h)
    else
      var it := h.value;
      NextOfAt(l.chain, it.index);
      match NextOf(l.chain, it.node)
      case Null => Step(false, h)
      case Ptr(next) =>
        NextOfAt(l.chain, it.index + 1);
        Step(true, Some(Iterator(next, it.index + 1, NodeAt(l.chain, next).data)))
  }

  /**
   `linked_list_delete_iterator`: frees the iterator object only; the list and
   its nodes are left as they are. A null iterator reports false.
   */
  function DeleteIterator(l: Option<List>, h: Option<Iterator>): (r: Outcome)
    ensures r.ok <==> h.Some?
    ensures r.list == l
  {
    Outcome(h.Some?, l)
  }

  /**
   The usual loop over an iterator: read the cached data, then call
   `linked_list_iterate` until it reports false. Returns the values read and
   the number of successful calls.
   */
  function Drain(l: List, it: Iterator): (r: (seq<UInt>, nat))
    requires Valid(l) && Positioned(l, it)
    decreases |l.chain| - it.index
  {
    var s := Iterate(l, Some(it));
    if s.ok then
      var rest := Drain(l, s.iter.value);
      ([it.data] + rest.0, rest.1 + 1)
    else ([it.data], 0)
  }

  /**
   Starting from index `k`, the iteration loop reads exactly the values from
   position `k` on, and `linked_list_iterate` succeeds (number of reachable
   nodes) - 1 - `k` times before it first reports false.
   */
  lemma {:induction false} DrainReadsSuffix(l: List, k: nat)
    requires Valid(l) && k < |l.chain|
    ensures Positioned(l, IterAt(l.chain, k))
    ensures Drain(l, IterAt(l.chain, k)).0 == Values(l.chain)[k..]
    ensures Drain(l, IterAt(l.chain, k)).1 == |l.chain| - 1 - k
    decreases |l.chain| - k
  {
    var it := IterAt(l.chain, k);
    if k + 1 < |l.chain| {
      assert Iterate(l, Some(it)).iter.value == IterAt(l.chain, k + 1);
      DrainReadsSuffix(l, k + 1);
      ValuesFrom(l.chain, k);
    }
  }

  /** At the last node `linked_list_iterate` fails and the cached data stays that node's. */
  lemma IterateStopsAtLast(l: List)
    requires Valid(l) && |l.chain| > 0
    ensures Iterate(l, Some(IterAt(l.chain, |l.chain| - 1))) == Step(false, Some(IterAt(l.chain, |l.chain| - 1)))
  {
  }
}

=== FILE: linked_list.dfy ===
/**
 The list operations of `linked_list.c`, as written.

 A list handle is `Option<List>`: `None` is a null `struct linked_list *`.
 Every mutator returns its boolean result together with the handle afterwards.
 An allocation request is a parameter: it either fails or yields the address
 of a fresh node.
 */
module LinkedList {
  import opened Nodes

  /**
   `struct linked_list`: the chain of nodes reachable from `head`, the `tail`
   pointer and the `size` counter. `head` is the address of the chain's first
   node (see `Head`); `tail` is stored on its own and, as the source keeps
   it, need not be the last node.
   */
  datatype List = List(chain: seq<Node>, tail: Ref, size: nat)
  {
    function Head(): Ref {
      RefAt(chain, 0)
    }
  }

  /** What a mutator returns (`ok`) and the list handle afterwards. */
  datatype Outcome = Outcome(ok: bool, list: Option<List>)

  /** The result of asking the allocator for a node. */
  datatype Alloc = OutOfMemory | Fresh(id: NodeId)

  /**
   Holds of every list the operations build: addresses are distinct, `size`
   never under-counts the reachable nodes, and `tail` is null or points into
   the chain.
   */
  predicate Valid(l: List) {
    && Distinct(l.chain)
    && |l.chain| <= l.size
    && (l.tail.Ptr? ==> Contains(l.chain, l.tail.id))
  }

  /**
   The invariant a singly-linked list with head, tail and count is meant to
   keep: `size` is the number of reachable nodes and `tail` is the last one
   (null exactly when the list is empty).
   */
  predicate WellFormed(l: List) {
    Valid(l) && l.size == |l.chain| && l.tail == LastRef(l.chain)
  }

  /** What every mutator demands: a sound list, and a fresh address if allocation succeeds. */
  predicate Admissible(h: Option<List>, a: Alloc) {
    h.Some? ==> Valid(h.value) && (a.Fresh? ==> !Contains(h.value.chain, a.id))
  }

  /** `linked_list_create`: a new empty list, or null when allocation fails. */
  function Create(obtained: bool): (h: Option<List>)
    ensures h.Some? <==> obtained
    ensures h.Some? ==> WellFormed(h.value) && h.value.size == 0 && h.value.Head() == Null
  {
    if obtained then Some(List([], Null, 0)) else None
  }

  /**
   `linked_list_delete`: releases every node reachable from `head`, in order,
   then the list itself. Returns the addresses of the released nodes.
   */
  method Delete(h: Option<List>) returns (ok: bool, released: seq<NodeId>)
    requires h.Some? ==> Valid(h.value)
    ensures ok <==> h.Some?
    ensures ok ==> |released| == |h.value.chain|
    ensures ok ==> forall k :: 0 <= k < |released| ==> released[k] == h.value.chain[k].id
    ensures !ok ==> released == []
  {
    released := [];
    if h.None? {
      return false, released;
    }
    var c := h.value.chain;
    var head := h.value.Head();
    ghost var k := 0;
    while head.Ptr?
      invariant k <= |c|
      invariant head == RefAt(c, k)
      invariant |released| == k
      invariant forall j :: 0 <= j < k ==> released[j] == c[j].id
      decreases |c| - k
    {
      NextOfAt(c, k);
      released := released + [head.id];
      head := NextOf(c, head.id);
      k := k + 1;
    }
    ok := true;
  }

  /** `linked_list_size`: the stored count, or `SIZE_MAX` for a null list. */
  function Size(h: Option<List>): (n: nat)
    requires h.Some? ==> Valid(h.value)
    ensures h.None? ==> n == SIZE_MAX
    ensures h.Some? ==> n == h.value.size && |h.value.chain| <= n
    ensures h.Some? && WellFormed(h.value) ==> n == |h.value.chain|
  {
    if h.None? then SIZE_MAX else h.value.size
  }

  /**
   `linked_list_insert_end`: links a new node after the node `tail` points
   to (or makes it the head when `tail` is null) and makes it the tail.
   Nodes that followed a stale `tail` are unlinked.
   */
  function InsertEnd(h: Option<List>, data: UInt, a: Alloc): (r: Outcome)
    requires Admissible(h, a)
    ensures r.ok <==> h.Some? && a.Fresh?
    ensures !r.ok ==> r.list == h
    ensures r.ok ==> r.list.Some? && Valid(r.list.value)
    ensures r.ok ==> r.list.value.size == h.value.size + 1 && r.list.value.tail == Ptr(a.id)
    ensures r.ok ==> |r.list.value.chain| > 0 && r.list.value.chain[|r.list.value.chain| - 1] == Node(a.id, data)
    ensures r.ok && WellFormed(h.value) ==>
              && WellFormed(r.list.value)
              && Values(r.list.value.chain) == Values(h.value.chain) + [data]
  {
    if h.None? || a.OutOfMemory? then Outcome(false, h)
    else
      var l := h.value;
      var n := Node(a.id, data);
      var c := if l.tail.Null? then [n] else l.chain[..IndexOf(l.chain, l.tail.id) + 1] + [n];
      assert c[|c| - 1].id == a.id;
      Outcome(true, Some(List(c, Ptr(a.id), l.size + 1)))
  }

  /**
   What `linked_list_insert_end` keeps: the nodes before the new one are the
   old chain up to and including the node `tail` pointed to; none when `tail`
   was null. Nodes after a stale `tail` are the ones dropped.
   */
  lemma InsertEndKeepsPrefix(h: Option<List>, data: UInt, a: Alloc)
    requires Admissible(h, a) && h.Some? && a.Fresh?
    ensures var c := InsertEnd(h, data, a).list.value.chain;
            && c[..|c| - 1] <= h.value.chain
            && (h.value.tail == Null <==> |c| == 1)
            && (h.value.tail.Ptr? ==> |c| >= 2 && c[|c| - 2].id == h.value.tail.id)
  {
    var l := h.value;
    if l.tail.Ptr? {
      var k := IndexOf(l.chain, l.tail.id);
      assert InsertEnd(h, data, a).list.value.chain[..k + 1] == l.chain[..k + 1];
    }
  }

  /**
   `linked_list_insert_front`: links a new node before the head; it becomes
   the tail too when `size` was 0.
   */
  function InsertFront(h: Option<List>, data: UInt, a: Alloc): (r: Outcome)
    requires Admissible(h, a)
    ensures r.ok <==> h.Some? && a.Fresh?
    ensures !r.ok ==> r.list == h
    ensures r.ok ==> r.list.Some? && Valid(r.list.value)
    ensures r.ok ==> r.list.value.size == h.value.size + 1 && r.list.value.Head() == Ptr(a.id)
    ensures r.ok ==> r.list.value.tail == (if h.value.size == 0 then Ptr(a.id) else h.value.tail)
    ensures r.ok ==> Values(r.list.value.chain) == [data] + Values(h.value.chain)
    ensures r.ok ==> r.list.value.chain[1..] == h.value.chain
    ensures r.ok && WellFormed(h.value) ==> WellFormed(r.list.value)
  {
    if h.None? || a.OutOfMemory? then Outcome(false, h)
    else
      var l := h.value;
      var n := Node(a.id, data);
      var c := [n] + l.chain;
      LinkAtFacts(l.chain, 0, n);
      assert c == LinkAt(l.chain, 0, n);
      Outcome(true, Some(List(c, if l.size == 0 then Ptr(a.id) else l.tail, l.size + 1)))
  }

  /**
   The index walk shared by positional insert and remove: starting at `head`,
   step `index` times, failing when a step starts from null. On success `p` is
   the node before position `index` (null for 0) and `n` the node at it
   (null when `index` is the chain's length).
   */
  method Walk(c: seq<Node>, index: nat) returns (ok: bool, p: Ref, n: Ref)
    requires Distinct(c)
    ensures ok <==> index <= |c|
    ensures ok ==> p == (if index == 0 then Null else Ptr(c[index - 1].id))
    ensures ok ==> n == RefAt(c, index)
    ensures ok && index == |c| ==> n == Null
  {
    p := Null;
    n := RefAt(c, 0);
    var remaining: nat := index;
    ghost var steps := 0;
    while remaining > 0
      invariant steps + remaining == index
      invariant steps <= |c|
      invariant n == RefAt(c, steps)
      invariant p == (if steps == 0 then Null else Ptr(c[steps - 1].id))
      decreases remaining
    {
      if n.Null? {
        return false, p, n;
      }
      NextOfAt(c, steps);
      p := n;
      n := NextOf(c, n.id);
      remaining := remaining - 1;
      steps := steps + 1;
    }
    ok := true;
  }

  /** The chain with `n` linked in at position `index`. */
  function LinkAt(c: seq<Node>, index: nat, n: Node): seq<Node>
    requires index <= |c|
  {
    c[..index] + [n] + c[index..]
  }

  /**
   Linking a node at a fresh address keeps addresses distinct, keeps every
   address that was there, and changes the last node only when linking at
   the end.
   */
  lemma LinkAtFacts(c: seq<Node>, index: nat, n: Node)
    requires Distinct(c) && !Contains(c, n.id) && index <= |c|
    ensures var c' := LinkAt(c, index, n);
            && |c'| == |c| + 1
            && Distinct(c')
            && c'[index] == n
            && Contains(c', n.id)
            && (forall id :: Contains(c, id) ==> Contains(c', id))
            && Values(c') == Values(c)[..index] + [n.data] + Values(c)[index..]
            && LastRef(c') == (if index == |c| then Ptr(n.id) else LastRef(c))
  {
    var c' := LinkAt(c, index, n);
    assert forall j :: 0 <= j < |c| ==> c'[if j < index then j else j + 1] == c[j];
    assert Distinct(c');
    forall id | Contains(c, id)
      ensures Contains(c', id)
    {
      var t :| 0 <= t < |c| && c[t].id == id;
      assert c'[if t < index then t else t + 1].id == id;
    }
    LinkAtValues(c, index, n);
  }

  /** Linking at `index` leaves the nodes before it in place and shifts the rest by one. */
  lemma LinkAtFrame(c: seq<Node>, index: nat, n: Node)
    requires index <= |c|
    ensures LinkAt(c, index, n)[..index] == c[..index]
    ensures LinkAt(c, index, n)[index + 1..] == c[index..]
  {
  }

  /** The payloads after linking: the new one at `index`, the others in order around it. */
  lemma LinkAtValues(c: seq<Node>, index: nat, n: Node)
    requires index <= |c|
    ensures Values(LinkAt(c, index, n)) == Values(c)[..index] + [n.data] + Values(c)[index..]
  {
  }

  /** The chain with node `index` unlinked. */
  function UnlinkAt(c: seq<Node>, index: nat): seq<Node>
    requires index < |c|
  {
    c[..index] + c[index + 1..]
  }

  /** Unlinking node `index` leaves the nodes before it in place and shifts the rest back by one. */
  lemma UnlinkAtFrame(c: seq<Node>, index: nat)
    requires index < |c|
    ensures UnlinkAt(c, index)[..index] == c[..index]
    ensures UnlinkAt(c, index)[index..] == c[index + 1..]
  {
  }

  /**
   Unlinking node `index` keeps addresses distinct, removes exactly that
   address, and moves the last node only when it was the one unlinked.
   */
  lemma UnlinkAtFacts(c: seq<Node>, index: nat)
    requires Distinct(c) && index < |c|
    ensures var c' := UnlinkAt(c, index);
            && |c'| + 1 == |c|
            && Distinct(c')
            && !Contains(c', c[index].id)
            && (forall id :: Contains(c, id) && id != c[index].id ==> Contains(c', id))
            && Values(c') == Values(c)[..index] + Values(c)[index + 1..]
            && LastRef(c') == (if index + 1 < |c| then LastRef(c) else if index == 0 then Null else Ptr(c[index - 1].id))
  {
    var c' := UnlinkAt(c, index);
    assert forall j :: 0 <= j < |c'| ==> c'[j] == c[if j < index then j else j + 1];
    forall id | Contains(c, id) && id != c[index].id
      ensures Contains(c', id)
    {
      var t :| 0 <= t < |c| && c[t].id == id;
      assert c'[if t < index then t else t - 1].id == id;
    }
  }

  /**
   `linked_list_insert`: walks `index` steps (failing past the end, before
   allocating), links the new node after `p` or, when `p` is null, makes it
   both head and tail. `tail` is not touched otherwise. The walk is not
   repeated here: `Walk` proves it fails exactly when `index` exceeds the
   chain's length, which is the test made below.
   */
  function Insert(h: Option<List>, index: nat, data: UInt, a: Alloc): (r: Outcome)
    requires Admissible(h, a)
    ensures r.ok <==> h.Some? && index <= |h.value.chain| && a.Fresh?
    ensures !r.ok ==> r.list == h
    ensures r.ok ==> r.list.Some? && Valid(r.list.value)
    ensures r.ok ==> r.list.value.size == h.value.size + 1
    ensures r.ok ==> Values(r.list.value.chain) == Values(h.value.chain)[..index] + [data] + Values(h.value.chain)[index..]
    ensures r.ok ==> r.list.value.chain[index] == Node(a.id, data)
    ensures r.ok ==> r.list.value.chain[..index] == h.value.chain[..index]
    ensures r.ok ==> r.list.value.chain[index + 1..] == h.value.chain[index..]
    ensures r.ok ==> r.list.value.tail == (if index == 0 then Ptr(a.id) else h.value.tail)
  {
    if h.None? || index > |h.value.chain| || a.OutOfMemory? then Outcome(false, h)
    else
      var l := h.value;
      LinkAtFacts(l.chain, index, Node(a.id, data));
      LinkAtFrame(l.chain, index, Node(a.id, data));
      var c := LinkAt(l.chain, index, Node(a.id, data));
      Outcome(true, Some(List(c, if index == 0 then Ptr(a.id) else l.tail, l.size + 1)))
  }

  /** Some node of the chain carries `data`. */
  predicate Occurs(c: seq<Node>, data: UInt) {
    exists k :: 0 <= k < |c| && c[k].data == data
  }

  /** The scan of `linked_list_find` from a node whose position is `i`. */
  function FindFrom(c: seq<Node>, data: UInt, i: nat): (r: nat)
    ensures Occurs(c, data) ==>
              && i <= r < i + |c|
              && c[r - i].data == data
              && forall j :: 0 <= j < r - i ==> c[j].data != data
    ensures !Occurs(c, data) ==> r == SIZE_MAX
  {
    if |c| == 0 then SIZE_MAX
    else if c[0].data == data then i
    else
      assert Occurs(c, data) ==> Occurs(c[1..], data) by {
        if Occurs(c, data) {
          var k :| 0 <= k < |c| && c[k].data == data;
          assert c[1..][k - 1].data == data;
        }
      }
      FindFrom(c[1..], data, i + 1)
  }

  /**
   `linked_list_find`: the position of the first node carrying `data`;
   `SIZE_MAX` when none does or the list is null.
   */
  function Find(h: Option<List>, data: UInt): (r: nat)
    ensures h.None? ==> r == SIZE_MAX
    ensures h.Some? && Occurs(h.value.chain, data) ==>
              && r < |h.value.chain|
              && h.value.chain[r].data == data
              && forall j :: 0 <= j < r ==> h.value.chain[j].data != data
    ensures h.Some? && !Occurs(h.value.chain, data) ==> r == SIZE_MAX
  {
    if h.None? then SIZE_MAX else FindFrom(h.value.chain, data, 0)
  }

  /**
   `linked_list_remove`: walks `index` steps (failing past the end), unlinks
   the node `n` reached, moves `tail` to `p` when `n` was the tail, and
   decrements `size`. At `index` equal to the chain's length the walk ends on
   null and the source dereferences it, so callers must avoid that index.
   As in `Insert`, the walk's failure is the test `index > |chain|`, which
   `Walk` proves equivalent.
   */
  function Remove(h: Option<List>, index: nat): (r: Outcome)
    requires h.Some? ==> Valid(h.value) && index != |h.value.chain|
    ensures r.ok <==> h.Some? && index < |h.value.chain|
    ensures !r.ok ==> r.list == h
    ensures r.ok ==> r.list.Some? && Valid(r.list.value)
    ensures r.ok ==> r.list.value.size + 1 == h.value.size
    ensures r.ok ==> Values(r.list.value.chain) == Values(h.value.chain)[..index] + Values(h.value.chain)[index + 1..]
    ensures r.ok ==> r.list.value.chain[..index] == h.value.chain[..index]
    ensures r.ok ==> r.list.value.chain[index..] == h.value.chain[index + 1..]
    ensures r.ok ==> !Contains(r.list.value.chain, h.value.chain[index].id)
    ensures r.ok ==>
              r.list.value.tail ==
              if h.value.tail != Ptr(h.value.chain[index].id) then h.value.tail
              else if index == 0 then Null
              else Ptr(h.value.chain[index - 1].id)
    ensures r.ok && WellFormed(h.value) ==> WellFormed(r.list.value)
  {
    if h.None? || index > |h.value.chain| then Outcome(false, h)
    else
      var l := h.value;
      var n := l.chain[index];
      var p := if index == 0 then Null else Ptr(l.chain[index - 1].id);
      var c := UnlinkAt(l.chain, index);
      UnlinkAtFacts(l.chain, index);
      UnlinkAtFrame(l.chain, index);
      Outcome(true, Some(List(c, if l.tail == Ptr(n.id) then p else l.tail, l.size - 1)))
  }
}

=== FILE: list_properties.dfy ===
/**
 Properties relating several list operations, and the concrete inputs on which
 the source's positional insert leaves `tail` behind.
 */
module ListProperties {
  import opened Nodes
  import opened LinkedList

  /**
   On a well-formed list, a successful positional insert keeps the list
   well-formed exactly when it lands strictly inside a non-empty list or
   into an empty one. At index 0 of a non-empty list `tail` is moved to the
   new head; at the end of a non-empty list `tail` stays on the old last node.
   */
  lemma InsertKeepsWellFormedIff(h: Option<List>, index: nat, data: UInt, a: Alloc)
    requires Admissible(h, a) && h.Some? && WellFormed(h.value)
    requires Insert(h, index, data, a).ok
    ensures WellFormed(Insert(h, index, data, a).list.value) <==>
              (|h.value.chain| == 0 || 0 < index < |h.value.chain|)
  {
  }

  /**
   After inserting `data` at `index`, searching for `data` finds it at
   `index` or earlier.
   */
  lemma InsertThenFind(h: Option<List>, index: nat, data: UInt, a: Alloc)
    requires Admissible(h, a)
    requires Insert(h, index, data, a).ok
    ensures Find(Insert(h, index, data, a).list, data) <= index
  {
  }

  /**
   Removing the node just inserted at `index` restores the chain and the
   count. `tail` comes back too unless the insert was at index 0 of a list
   whose `tail` was set: then it ends up null.
   */
  lemma RemoveUndoesInsert(h: Option<List>, index: nat, data: UInt, a: Alloc)
    requires Admissible(h, a)
    requires Insert(h, index, data, a).ok
    ensures var r := Remove(Insert(h, index, data, a).list, index);
            && r.ok
            && r.list.value.chain == h.value.chain
            && r.list.value.size == h.value.size
            && (r.list.value.tail == h.value.tail <==> index > 0 || h.value.tail == Null)
  {
  }

  /** Removing the only node of a well-formed list leaves it empty: null head and tail, size 0. */
  lemma RemoveOnlyNode(l: List)
    requires WellFormed(l) && |l.chain| == 1
    ensures var r := Remove(Some(l), 0);
            && r.ok
            && r.list.value.Head() == Null
            && r.list.value.tail == Null
            && r.list.value.size == 0
  {
  }

  /**
   Counterexample: inserting 3 at index 0 of the one-node list [5] makes the
   new head the tail, and a following insert at the end then unlinks 5 while
   `size` still counts it.
   */
  lemma InsertAtFrontStrandsTail()
    ensures Admissible(Some(List([Node(1, 5)], Ptr(1), 1)), Fresh(2))
    ensures var l := List([Node(1, 5)], Ptr(1), 1);
            var r := Insert(Some(l), 0, 3, Fresh(2));
            && WellFormed(l)
            && r.ok
            && r.list.value.chain == [Node(2, 3), Node(1, 5)]
            && r.list.value.tail == Ptr(2)
            && !WellFormed(r.list.value)
            && var e := InsertEnd(r.list, 7, Fresh(3));
               && e.list.value.chain == [Node(2, 3), Node(3, 7)]
               && e.list.value.size == 3
  {
    var l := List([Node(1, 5)], Ptr(1), 1);
    assert l.chain[0].id == 1;
    var r := Insert(Some(l), 0, 3, Fresh(2));
    assert r.list.value.chain == [Node(2, 3)] + [Node(1, 5)];
    assert IndexOf(r.list.value.chain, 2) == 0;
  }

  /**
   Counterexample: inserting 7 at index 1, the end of the one-node list [5],
   leaves `tail` on 5 although 7 is now last.
   */
  lemma InsertAtEndStrandsTail()
    ensures Admissible(Some(List([Node(1, 5)], Ptr(1), 1)), Fresh(2))
    ensures var l := List([Node(1, 5)], Ptr(1), 1);
            var r := Insert(Some(l), 1, 7, Fresh(2));
            && WellFormed(l)
            && r.ok
            && r.list.value.chain == [Node(1, 5), Node(2, 7)]
            && r.list.value.tail == Ptr(1)
            && !WellFormed(r.list.value)
  {
    var l := List([Node(1, 5)], Ptr(1), 1);
    assert l.chain[0].id == 1;
    var r := Insert(Some(l), 1, 7, Fresh(2));
    assert r.list.value.chain == [Node(1, 5)] + [Node(2, 7)];
  }
}

=== FILE: nodes.dfy ===
/**
 Vocabulary shared by the list and its iterator: the payload type, the `size_t`
 sentinel, node addresses and chains of nodes.

 A chain is the sequence of nodes reached by following `next` from a starting
 pointer. A node is recorded with its address (`id`); its `next` pointer is
 implied by its position: the successor in the chain, or null for the last one.
 */
module Nodes {

  /** The `unsigned int` payload of a node (32 bits wide). */
  type UInt = x: int | 0 <= x < 0x1_0000_0000

  /** `SIZE_MAX` of a 64-bit `size_t`: the sentinel returned by `size` and `find`. */
  const SIZE_MAX: nat := 0xFFFF_FFFF_FFFF_FFFF

  /** The address of an allocated node. */
  type NodeId = nat

  datatype Option<+T> = None | Some(value: T)

  /** A `struct node *`: null, or the address of a node. */
  datatype Ref = Null | Ptr(id: NodeId)

  /** A node: its address and its `data`. */
  datatype Node = Node(id: NodeId, data: UInt)

  /** The payloads of a chain, in order. */
  function Values(c: seq<Node>): seq<UInt> {
    seq(|c|, k requires 0 <= k < |c| => c[k].data)
  }

  /** The payloads from position `k` on: node `k`'s, then those after it. */
  lemma ValuesFrom(c: seq<Node>, k: nat)
    requires k < |c|
    ensures Values(c)[k..] == [c[k].data] + Values(c)[k + 1..]
  {
  }

  /** No two nodes of the chain share an address. */
  predicate Distinct(c: seq<Node>) {
    forall i, j :: 0 <= i < j < |c| ==> c[i].id != c[j].id
  }

  /** Some node of the chain lives at address `id`. */
  predicate Contains(c: seq<Node>, id: NodeId) {
    exists k :: 0 <= k < |c| && c[k].id == id
  }

  /** The pointer to node `k` of the chain, or null past its end. */
  function RefAt(c: seq<Node>, k: nat): Ref {
    if k < |c| then Ptr(c[k].id) else Null
  }

  /** The pointer to the last node of the chain, or null when the chain is empty. */
  function LastRef(c: seq<Node>): Ref {
    if |c| == 0 then Null else Ptr(c[|c| - 1].id)
  }

  /** The position of the first node at address `id`; `|c|` when no node is there. */
  function IndexOf(c: seq<Node>, id: NodeId): (k: nat)
    ensures k <= |c|
    ensures k < |c| <==> Contains(c, id)
    ensures k < |c| ==> c[k].id == id
    ensures forall j :: 0 <= j < k ==> c[j].id != id
  {
    if |c| == 0 then 0
    else if c[0].id == id then 0
    else 1 + IndexOf(c[1..], id)
  }

  /** In a chain of distinct addresses, the address of node `k` is found at `k`. */
  lemma IndexOfDistinct(c: seq<Node>, k: nat)
    requires Distinct(c) && k < |c|
    ensures IndexOf(c, c[k].id) == k
  {
  }

  /** Reading the `next` field of the node at address `id`. */
  function NextOf(c: seq<Node>, id: NodeId): Ref {
    RefAt(c, IndexOf(c, id) + 1)
  }

  /** The node stored at address `id`, which must be in the chain. */
  function NodeAt(c: seq<Node>, id: NodeId): Node
    requires Contains(c, id)
  {
    c[IndexOf(c, id)]
  }

  /** Following `next` from node `k` reaches node `k + 1`, or null from the last node. */
  lemma NextOfAt(c: seq<Node>, k: nat)
    requires Distinct(c) && k < |c|
    ensures NextOf(c, c[k].id) == RefAt(c, k + 1)
    ensures NodeAt(c, c[k].id) == c[k]
  {
  }

  /** An address larger than every address in the chain. */
  function MaxId(c: seq<Node>): (m: NodeId)
    ensures forall k :: 0 <= k < |c| ==> c[k].id <= m
  {
    if |c| == 0 then 0
    else
      var m := MaxId(c[1..]);
      if c[0].id > m then c[0].id else m
  }

  /** An address no node of the chain occupies: what a successful allocation hands out. */
  function FreshId(c: seq<Node>): (id: NodeId)
    ensures !Contains(c, id)
  {
    MaxId(c) + 1
  }
}

=== FILE: runs.dfy ===
/**
 Sequences of list operations, as written and with the corrected positional
 insert and remove, and concrete scenarios of single calls.
 */
module Runs {
  import opened Nodes
  import opened LinkedList
  import opened Iterators
  import opened Corrected

  /** One call of a list mutator; `obtained` says whether its allocation succeeds. */
  datatype Op =
    | PushBack(data: UInt, obtained: bool)
    | PushFront(data: UInt, obtained: bool)
    | InsertAt(index: nat, data: UInt, obtained: bool)
    | RemoveAt(index: nat)

  /**
   Which positional insert and remove a run uses: the source's, or the
   corrected ones. `AsWritten` still routes a remove through the checked
   variant, because the source's remove dereferences null at `index == |chain|`
   and has no outcome there.
   */
  datatype Variant = AsWritten | Fixed

  /**
   An allocator: the address a successful allocation returns at step `n` of a
   run, given the current list. Indexing by step lets a run receive any
   sequence of addresses, also different ones for equal list states.
   */
  type Allocator = (nat, List) -> NodeId

  /** The allocator never hands out the address of a reachable node. */
  ghost predicate HandsOutFresh(alloc: Allocator) {
    forall n: nat, l: List :: Valid(l) ==> !Contains(l.chain, alloc(n, l))
  }

  /** An allocator that returns one past the largest reachable address, at every step. */
  function NextAddress(n: nat, l: List): NodeId {
    FreshId(l.chain)
  }

  /** `NextAddress` meets the requirement on allocators. */
  lemma MaxPlusOneHandsOutFresh()
    ensures HandsOutFresh(NextAddress)
  {
  }

  /** The allocator's answer for the call at step `n`. */
  function AllocFor(l: List, obtained: bool, alloc: Allocator, n: nat): (a: Alloc)
    requires Valid(l) && !Contains(l.chain, alloc(n, l))
    ensures Admissible(Some(l), a)
    ensures a.Fresh? <==> obtained
    ensures a.Fresh? ==> a.id == alloc(n, l)
  {
    if obtained then Fresh(alloc(n, l)) else OutOfMemory
  }

  /** Performs the operation at step `n` with the positional insert and remove of `v`. */
  function Apply(l: List, op: Op, alloc: Allocator, v: Variant, n: nat): (r: Outcome)
    requires Valid(l) && !Contains(l.chain, alloc(n, l))
    ensures r.list.Some? && Valid(r.list.value)
    ensures r.list.value.size == if !r.ok then l.size else if op.RemoveAt? then l.size - 1 else l.size + 1
    ensures v == Fixed && WellFormed(l) ==> WellFormed(r.list.value)
  {
    match op
    case PushBack(d, ob) => InsertEnd(Some(l), d, AllocFor(l, ob, alloc, n))
    case PushFront(d, ob) => InsertFront(Some(l), d, AllocFor(l, ob, alloc, n))
    case InsertAt(i, d, ob) =>
      if v == Fixed then InsertFixed(Some(l), i, d, AllocFor(l, ob, alloc, n))
      else Insert(Some(l), i, d, AllocFor(l, ob, alloc, n))
    case RemoveAt(i) => RemoveChecked(Some(l), i)
  }

  /** The list after a run of operations, with the numbers of successful inserts and removes. */
  datatype Tally = Tally(final: List, inserted: nat, removed: nat)

  /** Runs `ops` as steps `n`, `n + 1`, and so on. */
  function Run(l: List, ops: seq<Op>, alloc: Allocator, v: Variant, n: nat): Tally
    requires Valid(l) && HandsOutFresh(alloc)
    decreases |ops|
  {
    if |ops| == 0 then Tally(l, 0, 0)
    else
      var r := Apply(l, ops[0], alloc, v, n);
      var t := Run(r.list.value, ops[1..], alloc, v, n + 1);
      var ins := if r.ok && !ops[0].RemoveAt? then 1 else 0;
      var rem := if r.ok && ops[0].RemoveAt? then 1 else 0;
      Tally(t.final, t.inserted + ins, t.removed + rem)
  }

  /**
   Over any run of operations, with either variant and any allocator that
   avoids reachable addresses, the list stays sound and `size` moves by the
   successful inserts minus the successful removes.
   */
  lemma {:induction false} RunTracksSize(l: List, ops: seq<Op>, alloc: Allocator, v: Variant, n: nat)
    requires Valid(l) && HandsOutFresh(alloc)
    ensures Valid(Run(l, ops, alloc, v, n).final)
    ensures Run(l, ops, alloc, v, n).final.size == l.size + Run(l, ops, alloc, v, n).inserted - Run(l, ops, alloc, v, n).removed
    decreases |ops|
  {
    if |ops| > 0 {
      RunTracksSize(Apply(l, ops[0], alloc, v, n).list.value, ops[1..], alloc, v, n + 1);
    }
  }

  /**
   With the corrected insert and remove, a run keeps a well-formed list
   well-formed, so `size` keeps counting exactly the reachable nodes.
   */
  lemma {:induction false} FixedRunKeepsWellFormed(l: List, ops: seq<Op>, alloc: Allocator, n: nat)
    requires WellFormed(l) && HandsOutFresh(alloc)
    ensures WellFormed(Run(l, ops, alloc, Fixed, n).final)
    ensures |Run(l, ops, alloc, Fixed, n).final.chain| == Run(l, ops, alloc, Fixed, n).final.size
    decreases |ops|
  {
    if |ops| > 0 {
      FixedRunKeepsWellFormed(Apply(l, ops[0], alloc, Fixed, n).list.value, ops[1..], alloc, n + 1);
    }
  }

  /**
   As written, a run of two calls, insert at 0 then append, already loses
   a reachable node from a well-formed one-node list.
   */
  lemma AsWrittenRunLosesNode()
    ensures HandsOutFresh(NextAddress)
    ensures WellFormed(List([Node(1, 5)], Ptr(1), 1))
    ensures var t := Run(List([Node(1, 5)], Ptr(1), 1), [InsertAt(0, 3, true), PushBack(7, true)], NextAddress, AsWritten, 0);
            && t.inserted == 2 && t.final.size == 3
            && Values(t.final.chain) == [3, 7]
  {
    var l := List([Node(1, 5)], Ptr(1), 1);
    assert l.chain[0].id == 1;
    var ops := [InsertAt(0, 3, true), PushBack(7, true)];
    var l1 := List([Node(2, 3), Node(1, 5)], Ptr(2), 2);
    assert NextAddress(0, l) == 2;
    assert LinkAt(l.chain, 0, Node(2, 3)) == l1.chain;
    assert Apply(l, ops[0], NextAddress, AsWritten, 0) == Outcome(true, Some(l1));
    var l2 := List([Node(2, 3), Node(3, 7)], Ptr(3), 3);
    assert l1.chain[0].id == 2;
    assert NextAddress(1, l1) == 3;
    assert l1.chain[..IndexOf(l1.chain, 2) + 1] + [Node(3, 7)] == l2.chain;
    assert Apply(l1, ops[1], NextAddress, AsWritten, 1) == Outcome(true, Some(l2));
    assert ops[1..][1..] == [];
    assert Run(l1, ops[1..], NextAddress, AsWritten, 1) == Tally(l2, 1, 0);
  }

  /** An allocator that moves past the largest reachable address by the step number. */
  function SpreadAddress(n: nat, l: List): NodeId {
    FreshId(l.chain) + n
  }

  /** `SpreadAddress` meets the requirement on allocators. */
  lemma SpreadAddressHandsOutFresh()
    ensures HandsOutFresh(SpreadAddress)
  {
  }

  /** The three calls of `SpreadAddressScenario`, one at a time. */
  lemma SpreadAddressSteps()
    ensures HandsOutFresh(SpreadAddress)
    ensures Valid(List([Node(1, 5)], Ptr(1), 1))
    ensures Apply(List([], Null, 0), PushBack(5, true), SpreadAddress, Fixed, 0)
            == Outcome(true, Some(List([Node(1, 5)], Ptr(1), 1)))
    ensures Apply(List([Node(1, 5)], Ptr(1), 1), RemoveAt(0), SpreadAddress, Fixed, 1)
            == Outcome(true, Some(List([], Null, 0)))
    ensures Apply(List([], Null, 0), PushBack(7, true), SpreadAddress, Fixed, 2)
            == Outcome(true, Some(List([Node(3, 7)], Ptr(3), 1)))
  {
    SpreadAddressHandsOutFresh();
    var c1 := [Node(1, 5)];
    assert c1[0].id == 1;
    assert UnlinkAt(c1, 0) == [];
    assert SpreadAddress(2, List([], Null, 0)) == 3;
  }

  /**
   An allocator may hand out a new address for a list state seen before:
   appending 5 to the empty list, removing it, and appending 7 leaves 7 at
   address 3 while 5 had address 1. Runs over such allocators are covered
   by `RunTracksSize` and `FixedRunKeepsWellFormed` as well.
   */
  lemma SpreadAddressScenario()
    ensures HandsOutFresh(SpreadAddress)
    ensures var t := Run(List([], Null, 0), [PushBack(5, true), RemoveAt(0), PushBack(7, true)], SpreadAddress, Fixed, 0);
            && t.final.chain == [Node(3, 7)]
            && t.inserted == 2 && t.removed == 1
  {
    SpreadAddressSteps();
    var ops := [PushBack(5, true), RemoveAt(0), PushBack(7, true)];
    var e := List([], Null, 0);
    var l1 := List([Node(1, 5)], Ptr(1), 1);
    var l3 := List([Node(3, 7)], Ptr(3), 1);
    assert ops[1..][1..][1..] == [];
    assert Run(e, ops[1..][1..], SpreadAddress, Fixed, 2) == Tally(l3, 1, 0);
    assert Run(l1, ops[1..], SpreadAddress, Fixed, 1) == Tally(l3, 1, 1);
  }

  /** Empty list, append 5, append 7: the chain is [5, 7] and `tail` is on 7. */
  lemma AppendScenario()
    ensures InsertEnd(Create(true), 5, Fresh(1)) == Outcome(true, Some(List([Node(1, 5)], Ptr(1), 1)))
    ensures Admissible(Some(List([Node(1, 5)], Ptr(1), 1)), Fresh(2))
    ensures InsertEnd(Some(List([Node(1, 5)], Ptr(1), 1)), 7, Fresh(2))
            == Outcome(true, Some(List([Node(1, 5), Node(2, 7)], Ptr(2), 2)))
  {
    var c1 := [Node(1, 5)];
    assert c1[0].id == 1;
    assert IndexOf(c1, 1) == 0;
    assert c1[..1] + [Node(2, 7)] == [Node(1, 5), Node(2, 7)];
  }

  /** Prepending 3 to [5, 7] gives [3, 5, 7], with `tail` still on 7. */
  lemma PrependScenario()
    ensures Admissible(Some(List([Node(1, 5), Node(2, 7)], Ptr(2), 2)), Fresh(3))
    ensures InsertFront(Some(List([Node(1, 5), Node(2, 7)], Ptr(2), 2)), 3, Fresh(3))
            == Outcome(true, Some(List([Node(3, 3), Node(1, 5), Node(2, 7)], Ptr(2), 3)))
  {
    var c2 := [Node(1, 5), Node(2, 7)];
    assert c2[1].id == 2;
    assert [Node(3, 3)] + c2 == [Node(3, 3), Node(1, 5), Node(2, 7)];
  }

  /** In [3, 5, 7], of size 3, the value 5 is found at index 1. */
  lemma FindScenario()
    ensures WellFormed(List([Node(3, 3), Node(1, 5), Node(2, 7)], Ptr(2), 3))
    ensures Values([Node(3, 3), Node(1, 5), Node(2, 7)]) == [3, 5, 7]
    ensures Size(Some(List([Node(3, 3), Node(1, 5), Node(2, 7)], Ptr(2), 3))) == 3
    ensures Find(Some(List([Node(3, 3), Node(1, 5), Node(2, 7)], Ptr(2), 3)), 5) == 1
  {
  }

  /** Removing index 0 of [3, 5, 7] leaves [5, 7], size 2, with `tail` still on the node holding 7. */
  lemma RemoveScenario()
    ensures Valid(List([Node(3, 3), Node(1, 5), Node(2, 7)], Ptr(2), 3))
    ensures Remove(Some(List([Node(3, 3), Node(1, 5), Node(2, 7)], Ptr(2), 3)), 0)
            == Outcome(true, Some(List([Node(1, 5), Node(2, 7)], Ptr(2), 2)))
  {
    var c3 := [Node(3, 3), Node(1, 5), Node(2, 7)];
    assert c3[2].id == 2;
    assert Valid(List(c3, Ptr(2), 3));
    assert UnlinkAt(c3, 0) == [Node(1, 5), Node(2, 7)];
    assert Remove(Some(List(c3, Ptr(2), 3)), 0).list.value.chain == [Node(1, 5), Node(2, 7)];
  }

  /**
   On an empty list, inserting at index 1 fails; inserting at index 0
   succeeds and the new node is the only one, both head and tail.
   */
  lemma InsertIntoEmptyScenario(d: UInt, id: NodeId)
    ensures var l0 := Create(true);
            && !Insert(l0, 1, d, Fresh(id)).ok
            && var r := Insert(l0, 0, d, Fresh(id));
               && r.ok
               && r.list.value.chain == [Node(id, d)]
               && r.list.value.Head() == Ptr(id)
               && r.list.value.tail == Ptr(id)
               && WellFormed(r.list.value)
  {
  }

  /**
   An iterator created at index 0 of [3, 5, 7] caches 3; advancing gives 5,
   then 7; a third advance fails and the cached value stays 7. A successful
   `CreateIterator` at index 0 returns exactly `IterAt(chain, 0)`: its
   result is `Positioned` with index 0.
   */
  lemma IterateScenario()
    ensures var l := List([Node(3, 3), Node(1, 5), Node(2, 7)], Ptr(2), 3);
            && WellFormed(l)
            && IterAt(l.chain, 0).data == 3
            && var s1 := Iterate(l, Some(IterAt(l.chain, 0)));
               && s1.ok && s1.iter.value.data == 5
               && var s2 := Iterate(l, s1.iter);
                  && s2.ok && s2.iter.value.data == 7
                  && var s3 := Iterate(l, s2.iter);
                     && !s3.ok && s3.iter.value.data == 7
  {
    var l := List([Node(3, 3), Node(1, 5), Node(2, 7)], Ptr(2), 3);
    assert l.chain[2].id == 2;
  }
}
